=== FILE: README.md ===
# Gene essentiality map — a Dafny model of its data pipeline

The `GeneEssentialityMap2` React component fetches knockout-screen results for a gene and draws them as a
scatter plot. Each point is one cell line's gene effect, drawn on the row of its tissue. A tissue filter
narrows the plot to the selected tissues. This project models the component's logic:

- **Tissue index** (`Projection.UniqueTissues`). `[...new Set(names)]` gives each tissue name once, in
  first-occurrence order. Its positions are the plot's rows.
- **Point projection** (`Projection.Points`, `Projection.Project`). This is the `flatMap` / `filter` / `map`
  that turns every screen with a non-null gene effect into a point. The point's `y` is
  `indexOf(tissueName)` in the tissue index.
- **Point colours** (`Colors.PointColor`). A score `<= -1` is red ("dependency") and any other score is blue
  ("neutral"). The theme picks the shade and `alpha` is passed through. Colours are `Rgba` values carrying
  the component's own channel constants.
- **Datasets** (`Chart.BuildDataset`). The unfiltered dataset holds one fill colour (alpha 0.6) and one
  border colour (alpha 1) per point.
- **Selection toggle** (`Selection.Toggle`). A selected tissue is removed with all its copies. An unselected
  one is appended.
- **Filtered view** (`Selection.Visible`, `Chart.FilteredDataset`). An empty selection shows the original
  data. A non-empty selection shows, in their original order, the points whose tissue is selected.
- **Tick labels and threshold line** (`Chart.YTickLabel`, `Chart.ThresholdLine`).
- **Component state** (`Component.GeneEssentialityMap`). A class with the fields `tissues`,
  `selectedTissues`, `chartData` and `originalData`. Its methods are the reset at fetch start, the
  assignment on a successful fetch, the toggle handler and the selection effect.

`Seqs` holds the generic list operations these are built from. They are `indexOf`, `new Set` insertion
order and `filter`, with lemmas about them. `Wrappers` holds `Option`, which models a JSON `null`.

Details of the code the model keeps:

- A tissue whose screens all have a null gene effect still gets a row in the tissue index. Line 51 takes
  the names from every record.
- The selection is a list in click order, not a set. Toggling appends at the end. The filtered points
  depend only on which names the list contains (`Selection.VisibleDependsOnlyOnMembers`).
- A repeated tissue name maps to the row of its first record, because the code uses `indexOf`.
- The code has no last-request-wins check between overlapping fetches, so the model has none.

## Model

| member | source | states |
|---|---|---|
| `Seqs.IndexOf` | gene-essentiality-app/components/GeneEssentialityMap2.tsx:59 | `indexOf` returns -1 exactly when the value is absent; otherwise it returns a position holding the value with no earlier occurrence |
| `Seqs.Dedupe` | gene-essentiality-app/components/GeneEssentialityMap2.tsx:51 | `[...new Set(s)]` has no duplicates and holds exactly the values of `s` |
| `Seqs.DedupeFirstOccurrenceOrder` | gene-essentiality-app/components/GeneEssentialityMap2.tsx:51 | the deduplicated values are ordered by their first occurrence in the input |
| `Seqs.Filter` | gene-essentiality-app/components/GeneEssentialityMap2.tsx:56 | `filter` keeps exactly the elements satisfying the predicate and is never longer than its input |
| `Projection.UniqueTissues` | gene-essentiality-app/components/GeneEssentialityMap2.tsx:51 | the tissue index has no duplicates; a name is in it exactly when some record carries it, whether or not that record has plottable screens |
| `Projection.TissueIndexOrder` | gene-essentiality-app/components/GeneEssentialityMap2.tsx:51 | rows follow the order in which tissue names first appear in the payload |
| `Projection.TissueIndexSize` | gene-essentiality-app/components/GeneEssentialityMap2.tsx:51 | the number of rows equals the number of distinct tissue names |
| `Projection.Project` | gene-essentiality-app/components/GeneEssentialityMap2.tsx:51-66 | the projection gives a duplicate-free index of all tissue names and one point per non-null screen; every point lies on its tissue's row; an empty payload gives no rows and no points |
| `Projection.ToPoint` | gene-essentiality-app/components/GeneEssentialityMap2.tsx:57-65 | a point carries its screen's gene effect as `x` and the screen's cell line, DepMap id, disease and expression; `y` is the row of its tissue when the tissue is in the index, and -1 otherwise, as `indexOf` gives |
| `Projection.RecordPoints` | gene-essentiality-app/components/GeneEssentialityMap2.tsx:55-65 | one record gives at most one point per screen, all with the record's tissue on that tissue's row; the exact count is in `Projection.KeptScreensCount` |
| `Projection.Points` | gene-essentiality-app/components/GeneEssentialityMap2.tsx:54-66 | the `flatMap`: every point's `y` is the `indexOf` of its tissue; count, order and provenance are in `Projection.PointCount`, `Projection.PointsAppend`, `Projection.PointsProjectedFrom` and `Projection.PointsComplete` |
| `Projection.KeptScreensCount` | gene-essentiality-app/components/GeneEssentialityMap2.tsx:56 | the `geneEffect !== null` filter keeps as many screens as have a non-null gene effect |
| `Projection.PointCount` | gene-essentiality-app/components/GeneEssentialityMap2.tsx:54-58 | the number of points equals the number of screens with a non-null gene effect |
| `Projection.PointsAppend` | gene-essentiality-app/components/GeneEssentialityMap2.tsx:54-66 | points come out record by record: the points of concatenated payloads are the concatenated points |
| `Projection.RecordPointsAppend` | gene-essentiality-app/components/GeneEssentialityMap2.tsx:55-65 | within a record, points come out screen by screen in payload order |
| `Projection.RecordPointsSingle` | gene-essentiality-app/components/GeneEssentialityMap2.tsx:55-65 | a single screen yields exactly one point when its gene effect is present and none when it is null |
| `Projection.PointsProjectedFrom` | gene-essentiality-app/components/GeneEssentialityMap2.tsx:54-65 | every point was built from a non-null screen of the payload; its `x` is that screen's gene effect and its other fields are that screen's fields |
| `Projection.PointsComplete` | gene-essentiality-app/components/GeneEssentialityMap2.tsx:54-65 | every screen with a non-null gene effect gives a point |
| `Projection.PointsOnTheirRows` | gene-essentiality-app/components/GeneEssentialityMap2.tsx:51-59 | with the payload's own index, every point has `0 <= y < rows` and the row at `y` is the point's tissue |
| `Projection.SameRowIffSameTissue` | gene-essentiality-app/components/GeneEssentialityMap2.tsx:59 | two points share a row exactly when they share a tissue name; `y` is the first row carrying that name |
| `Colors.PointColor` | gene-essentiality-app/components/GeneEssentialityMap2.tsx:30-36 | `getPointColor`: the colour is in the class colour of the score (red for `<= -1`), carries the requested alpha, and is a bright shade in the dark theme and a deep one otherwise; equality of colours is characterised in `Colors.ColorDeterminedByClassAndShade` |
| `Colors.ColorShowsClass` | gene-essentiality-app/components/GeneEssentialityMap2.tsx:30-36 | a point's colour is red, which the legend reads as "Dependency", exactly when its score is `<= -1`, so -1 itself is a dependency; alpha is passed through |
| `Colors.ColorDeterminedByClassAndShade` | gene-essentiality-app/components/GeneEssentialityMap2.tsx:30-36 | two colours are equal exactly when the scores have the same class and the themes agree on being "dark" |
| `Colors.FillAndBorderShareHue` | gene-essentiality-app/components/GeneEssentialityMap2.tsx:73-74 | a point's fill and border differ only in opacity (0.6 and 1) |
| `Chart.BuildDataset` | gene-essentiality-app/components/GeneEssentialityMap2.tsx:68-82 | the unfiltered dataset has one fill and one border per point; entry i of each is `PointColor` of point i under the theme, so it is in point i's class colour and theme shade; fills have alpha 0.6 and borders alpha 1 |
| `Selection.Toggle` | gene-essentiality-app/components/GeneEssentialityMap2.tsx:97-99 | toggling flips the tissue's membership and keeps every other name's. An absent tissue is appended. A present one loses all its copies; the rest stay in order with the same multiplicities. A duplicate-free selection stays duplicate-free |
| `Selection.ToggleTwiceSameMembers` | gene-essentiality-app/components/GeneEssentialityMap2.tsx:98 | toggling the same tissue twice restores the selection's membership |
| `Selection.ToggleTwiceRestores` | gene-essentiality-app/components/GeneEssentialityMap2.tsx:98 | toggling an unselected tissue twice restores the selection exactly |
| `Selection.Visible` | gene-essentiality-app/components/GeneEssentialityMap2.tsx:102-103 | an empty selection shows all points. Otherwise the shown points are exactly the points whose tissue is selected, unchanged (same `y`), in original order, each as often as in the original |
| `Selection.VisibleDependsOnlyOnMembers` | gene-essentiality-app/components/GeneEssentialityMap2.tsx:101-115 | selections with the same members show the same points, whatever toggles led to them |
| `Selection.ToggleTwiceSameView` | gene-essentiality-app/components/GeneEssentialityMap2.tsx:97-115 | toggling a tissue twice brings back the same view; starting from no selection, that view is all points |
| `Selection.VisibleIdempotent` | gene-essentiality-app/components/GeneEssentialityMap2.tsx:103 | filtering the shown points again with the same selection changes nothing |
| `Selection.VisibleKeepsRows` | gene-essentiality-app/components/GeneEssentialityMap2.tsx:103 | filtered points keep their rows, so the tissue index still labels them |
| `Chart.FilteredDataset` | gene-essentiality-app/components/GeneEssentialityMap2.tsx:101-115 | the filtered dataset (colours filtered with the points) shows exactly the points `Visible` selects, and keeps every point in its class colours |
| `Chart.FilterStyled` | gene-essentiality-app/components/GeneEssentialityMap2.tsx:103-108 | filtering points together with their colours keeps one fill and one border per point and the points of the selected tissues |
| `Chart.FilterStyledKeepsClasses` | gene-essentiality-app/components/GeneEssentialityMap2.tsx:103-108 | filtering points together with their colours preserves colour-to-point class alignment |
| `Chart.FilteredDatasetAsWritten` | gene-essentiality-app/components/GeneEssentialityMap2.tsx:101-115 | the effect as written: the shown points are `Visible`'s, never more than the original ones, while the fill and border arrays are the original ones unchanged |
| `Chart.FilteredViewsShowSamePoints` | gene-essentiality-app/components/GeneEssentialityMap2.tsx:104-111 | the as-written effect and the corrected one show the same points; only the colour arrays differ |
| `Chart.AsWrittenLosesAlignment` | gene-essentiality-app/components/GeneEssentialityMap2.tsx:104-111 | as written, any selection that hides a point leaves more colours than points: the colour arrays keep their unfiltered length |
| `Chart.AsWrittenMisdrawsFirstShown` | gene-essentiality-app/components/GeneEssentialityMap2.tsx:104-111 | as written, the shown points are `Visible`'s and the colour arrays are the original ones unchanged; when the selection hides the first point and the first shown point has the other class, that point is drawn in the wrong class colours (one sufficient case of `Chart.AsWrittenMisdrawnExactly`) |
| `Chart.AsWrittenMisdrawnExactly` | gene-essentiality-app/components/GeneEssentialityMap2.tsx:104-111 | as written, shown point i is drawn in the colours of original point i: its fill and border are in its own class colours exactly when its class equals that of original point i |
| `Chart.BreastLungProjection` | gene-essentiality-app/components/GeneEssentialityMap2.tsx:51-66 | a payload with breast (-1.5) and lung (0.1) gives rows ["breast", "lung"] and the points (x -1.5, y 0) and (x 0.1, y 1) |
| `Chart.LungDrawnAsDependency` | gene-essentiality-app/components/GeneEssentialityMap2.tsx:104-111 | selecting "lung" on that payload: as written, the neutral lung point is drawn with the breast point's red fill; the corrected dataset draws it blue |
| `Chart.YTickLabel` | gene-essentiality-app/components/GeneEssentialityMap2.tsx:155 | the tick label is a tissue name or empty; on a row it is that row's tissue; when no tissue name is empty, the label is non-empty exactly on the rows |
| `Chart.TickLabelNamesPoint` | gene-essentiality-app/components/GeneEssentialityMap2.tsx:155 | the y-tick label on any shown point's row is that point's tissue name, with or without a filter |
| `Chart.ThresholdLine` | gene-essentiality-app/components/GeneEssentialityMap2.tsx:200-221 | the annotation line stands at x = -1 in a dependency colour at alpha 0.5, starts below row 0, ends above the last row and spans exactly one unit per row |
| `Chart.ThresholdLineMarksBoundary` | gene-essentiality-app/components/GeneEssentialityMap2.tsx:200-221 | the annotation line stands at x = -1, the classification threshold, in the theme's dependency colour, and spans every row (from -0.5 to rows - 0.5) |
| `Component.GeneEssentialityMap.constructor` | gene-essentiality-app/components/GeneEssentialityMap2.tsx:21-26 | the component starts with no chart data, no tissues, no selection and no original data |
| `Component.GeneEssentialityMap.FetchStarted` | gene-essentiality-app/components/GeneEssentialityMap2.tsx:39-44 | starting a fetch clears chart data, tissues, selection and original data |
| `Component.GeneEssentialityMap.FetchSucceeded` | gene-essentiality-app/components/GeneEssentialityMap2.tsx:51-85 | on success the tissue index and the dataset come from the payload; chart data and original data are the same value with one point per non-null screen; the invariant (duplicate-free rows, points on their rows, class colours aligned) holds |
| `Component.GeneEssentialityMap.ToggleTissueSelection` | gene-essentiality-app/components/GeneEssentialityMap2.tsx:97-99 | the selection becomes `Toggle` of the old one; nothing else changes, in particular not the original data |
| `Component.GeneEssentialityMap.SelectionEffect` | gene-essentiality-app/components/GeneEssentialityMap2.tsx:101-115 | with original data, the chart shows exactly the points `Visible` selects for the current selection (the original data itself when nothing is selected); without it, the chart data is left alone; the original data is never modified. With a selection it stores the corrected dataset, whose colours are filtered with the points (see "## Left out") |

## Findings

| source | as written | input that shows it | evidently intended | confidence | as-written member | corrected member |
|---|---|---|---|---|---|---|
| gene-essentiality-app/components/GeneEssentialityMap2.tsx:104-111 | the filtered dataset spreads the original dataset and replaces only `data`, so `backgroundColor` and `borderColor` keep the full unfiltered arrays and colour i no longer belongs to point i | breast (one screen, -1.5) and lung (one screen, 0.1), select "lung": the neutral lung point becomes point 0 and is drawn with fill 0, the red fill of the breast point | filter the colour arrays together with the points, so every shown point keeps the colour of its class | not executed | `Chart.LungDrawnAsDependency` | `Chart.FilteredDataset` |

The as-written effect is `Chart.FilteredDatasetAsWritten`. `Chart.AsWrittenLosesAlignment` shows that any
selection that hides a point leaves more colours than points. As written, shown point i is drawn in the
colours of original point i. `Chart.AsWrittenMisdrawnExactly` proves that shown point i gets a wrong class
colour exactly when its class differs from that of original point i. The shift carries past every hidden
point, so a point can be misdrawn even when no hidden point changes class with its neighbour.
`Chart.AsWrittenMisdrawsFirstShown` is one case of it: the first point is hidden and the first shown point
has the other class. The component class uses the corrected
`Chart.FilteredDataset`. `Chart.FilteredViewsShowSamePoints` proves that both versions show the same
points, so only the colours differ from the code.

## Left out

- Network and async work in `fetchData`: `fetch`, `response.ok`, JSON parsing, `async`/`await`, the
  `loading` flag and the error message. A failure before line 52 (a failed request, a bad status, bad
  JSON) leaves the state `FetchStarted` produced. A throw inside the projection (lines 54-66) comes after
  `setTissues` at line 52, so it leaves the tissue index set and the chart data `null`; that path is not
  modelled. `FetchSucceeded` takes the parsed payload as a parameter.
- The theme comes from `next-themes`, so it is a parameter (`Option<string>`, where `None` is `undefined`).
  The theme-toggle button is not modelled.
- `ensemblId` and `theme` are dependencies of `fetchData` (line 91), so the effect at lines 93-95 starts a
  new fetch (`FetchStarted`, which clears the selection and the chart) whenever either changes. When a
  fetch starts is left to the environment, as is when the selection effect runs. The request URL built
  from `ensemblId` is not modelled.
- React's scheduling. `SelectionEffect` is a method the environment calls after a change to the selection
  or the original data. The model does not force it to run after every toggle.
- Presentation: the dataset label, widths, hover colours, axis and tooltip styling, `toFixed` formatting,
  animations and the legend markup. The colour class is read the way the legend reads it: red is
  Dependency, blue is Neutral.
- `Chart.YTickLabel` takes integer tick values only. With `stepSize: 1` the ticks on the row axis are
  integers.
- Floating point: gene effects are `real`. Only the comparison with -1 matters, and NaN and infinities are
  not represented.
- JavaScript's `undefined` and `null` are both the model's `None`. `geneEffect !== null` would let an
  `undefined` through; the mock data never has one.
- A malformed payload, such as a missing `screens` array, throws inside `fetchData` and ends as a fetch
  failure. The model takes a well-formed payload.
- Component.GeneEssentialityMap.SelectionEffect: with a non-empty selection the class stores
  `Chart.FilteredDataset`, whose colour arrays are filtered together with the points. Line 107 keeps the
  full, unfiltered colour arrays (`Chart.FilteredDatasetAsWritten`). The shown points are the same
  (`Chart.FilteredViewsShowSamePoints`), but the class does not reproduce the misaligned colours of the
  code, so its invariant `ClassesAligned` on `chartData` holds for the corrected effect only.
- The mock HTTP handler, the onboarding tour, the page layout, `TissueDropdown` and the `Scatter` wrapper
  are UI or library code, not logic. `TissueDropdown` only calls `includes` and `onToggle`.

=== FILE: chart.dfy ===
/**
 * The scatter dataset handed to the chart: the points with one fill and one
 * border colour per point, its filtered variant, the y-axis tick labels and
 * the threshold annotation.
 */
module Chart {
  import opened Wrappers
  import opened Seqs
  import opened Colors
  import opened Projection
  import opened Selection

  /**
   * `datasets[0]` of the chart data: `backgroundColor[i]` and `borderColor[i]`
   * are drawn for `data[i]`. Label, widths and hover colours are presentation.
   */
  datatype Dataset = Dataset(data: seq<PlotPoint>, backgroundColor: seq<Rgba>, borderColor: seq<Rgba>)

  /** One fill and one border colour per point. */
  predicate Shaped(ds: Dataset) {
    |ds.backgroundColor| == |ds.data| && |ds.borderColor| == |ds.data|
  }

  /** Every point is drawn in the colours of its own class. */
  ghost predicate ClassesAligned(ds: Dataset) {
    && Shaped(ds)
    && (forall i :: 0 <= i < |ds.data| ==> ClassOf(ds.backgroundColor[i]) == Classify(ds.data[i].x))
    && (forall i :: 0 <= i < |ds.data| ==> ClassOf(ds.borderColor[i]) == Classify(ds.data[i].x))
  }

  /**
   * The dataset built in `fetchData`: fills at the default opacity, borders
   * opaque, each point in the colours of its class under the theme.
   */
  function BuildDataset(points: seq<PlotPoint>, theme: Option<string>): (ds: Dataset)
    ensures ds.data == points
    ensures ClassesAligned(ds)
    ensures forall i :: 0 <= i < |ds.data| ==> ds.backgroundColor[i].alpha == FillAlpha && ds.borderColor[i].alpha == BorderAlpha
    ensures forall i :: 0 <= i < |ds.data| ==> ds.borderColor[i] == ds.backgroundColor[i].(alpha := BorderAlpha)
    ensures forall i :: 0 <= i < |points| ==>
              ds.backgroundColor[i] == PointColor(points[i].x, theme, FillAlpha)
              && ds.borderColor[i] == PointColor(points[i].x, theme, BorderAlpha)
  {
    var fills := seq(|points|, i requires 0 <= i < |points| => PointColor(points[i].x, theme, FillAlpha));
    var borders := seq(|points|, i requires 0 <= i < |points| => PointColor(points[i].x, theme, BorderAlpha));
    forall i | 0 <= i < |points|
      ensures ClassOf(fills[i]) == Classify(points[i].x) && ClassOf(borders[i]) == Classify(points[i].x)
    {
      ColorShowsClass(points[i].x, theme, FillAlpha);
      ColorShowsClass(points[i].x, theme, BorderAlpha);
    }
    Dataset(points, fills, borders)
  }

  /**
   * The filter effect as the component writes it: with a non-empty selection
   * it spreads the original dataset and replaces only `data`, so the colour
   * arrays keep their unfiltered length and order.
   */
  function FilteredDatasetAsWritten(original: Dataset, selected: seq<string>): (r: Dataset)
    ensures r.data == Visible(original.data, selected)
    ensures r.backgroundColor == original.backgroundColor && r.borderColor == original.borderColor
    ensures |r.data| <= |original.data|
  {
    if |selected| > 0 then original.(data := Visible(original.data, selected)) else original
  }

  /**
   * The filter effect with the colour arrays filtered in step with the points:
   * each shown point keeps its own fill and border.
   */
  function FilteredDataset(original: Dataset, selected: seq<string>): (r: Dataset)
    requires Shaped(original)
    ensures Shaped(r)
    ensures r.data == Visible(original.data, selected)
    ensures ClassesAligned(original) ==> ClassesAligned(r)
  {
    if |selected| > 0 then
      FilterStyledKeepsClasses(original, selected);
      FilterStyled(original, selected)
    else original
  }

  /** Keeps the points of the selected tissues together with their colours. */
  function FilterStyled(ds: Dataset, selected: seq<string>): (r: Dataset)
    requires Shaped(ds)
    ensures Shaped(r)
    ensures r.data == Filter(ds.data, InSelection(selected))
    decreases |ds.data|
  {
    if |ds.data| == 0 then Dataset([], [], [])
    else
      var rest := FilterStyled(Tail(ds), selected);
      if ds.data[0].tissue in selected then
        Dataset([ds.data[0]] + rest.data, [ds.backgroundColor[0]] + rest.backgroundColor, [ds.borderColor[0]] + rest.borderColor)
      else rest
  }

  /** The dataset without its first point and that point's colours. */
  function Tail(ds: Dataset): (r: Dataset)
    requires Shaped(ds) && |ds.data| > 0
    ensures Shaped(r) && |r.data| == |ds.data| - 1
  {
    Dataset(ds.data[1..], ds.backgroundColor[1..], ds.borderColor[1..])
  }

  /** Filtering points together with their colours keeps every point in its class colours. */
  lemma {:induction false} FilterStyledKeepsClasses(ds: Dataset, selected: seq<string>)
    requires Shaped(ds)
    ensures ClassesAligned(ds) ==> ClassesAligned(FilterStyled(ds, selected))
    decreases |ds.data|
  {
    if ClassesAligned(ds) && |ds.data| > 0 {
      var tail := Tail(ds);
      assert ClassesAligned(tail) by {
        forall i | 0 <= i < |tail.data|
          ensures ClassOf(tail.backgroundColor[i]) == Classify(tail.data[i].x)
          ensures ClassOf(tail.borderColor[i]) == Classify(tail.data[i].x)
        {
          assert tail.data[i] == ds.data[i + 1];
        }
      }
      FilterStyledKeepsClasses(tail, selected);
      var rest := FilterStyled(tail, selected);
      if ds.data[0].tissue in selected {
        var r := FilterStyled(ds, selected);
        forall i | 0 <= i < |r.data|
          ensures ClassOf(r.backgroundColor[i]) == Classify(r.data[i].x)
          ensures ClassOf(r.borderColor[i]) == Classify(r.data[i].x)
        {
          if i > 0 {
            assert r.data[i] == rest.data[i - 1];
            assert r.backgroundColor[i] == rest.backgroundColor[i - 1];
            assert r.borderColor[i] == rest.borderColor[i - 1];
          }
        }
      }
    }
  }

  /** The corrected and the as-written effect show the same points; only the colours differ. */
  lemma FilteredViewsShowSamePoints(original: Dataset, selected: seq<string>)
    requires Shaped(original)
    ensures FilteredDataset(original, selected).data == FilteredDatasetAsWritten(original, selected).data
  {
  }

  /**
   * As written, any selection that hides a point leaves more colours than
   * points: the colour arrays keep their unfiltered length.
   */
  lemma AsWrittenLosesAlignment(original: Dataset, selected: seq<string>)
    requires Shaped(original)
    requires |Visible(original.data, selected)| < |original.data|
    ensures !Shaped(FilteredDatasetAsWritten(original, selected))
    ensures !ClassesAligned(FilteredDatasetAsWritten(original, selected))
  {
  }

  /**
   * As written, shown point `i` is drawn in the colours of original point
   * `i`. When the selection hides the first point and the first shown point
   * has the other class, that point is drawn in the wrong class colours.
   */
  lemma AsWrittenMisdrawsFirstShown(original: Dataset, selected: seq<string>)
    requires ClassesAligned(original)
    requires |original.data| > 0 && original.data[0] !in Visible(original.data, selected)
    requires |Visible(original.data, selected)| > 0
    requires Classify(Visible(original.data, selected)[0].x) != Classify(original.data[0].x)
    ensures var shown := FilteredDatasetAsWritten(original, selected);
            && shown.data == Visible(original.data, selected)
            && shown.backgroundColor == original.backgroundColor
            && shown.borderColor == original.borderColor
            && ClassOf(shown.backgroundColor[0]) != Classify(shown.data[0].x)
            && ClassOf(shown.borderColor[0]) != Classify(shown.data[0].x)
  {
  }

  /**
   * As written, shown point `i` is drawn in the colours of original point
   * `i`, so it is drawn in its own class colours exactly when it has the
   * class of the original point at the same position.
   */
  lemma AsWrittenMisdrawnExactly(original: Dataset, selected: seq<string>)
    requires ClassesAligned(original)
    ensures var shown := FilteredDatasetAsWritten(original, selected);
            && |shown.data| <= |original.data|
            && forall i :: 0 <= i < |shown.data| ==>
                 && (ClassOf(shown.backgroundColor[i]) == Classify(shown.data[i].x) <==> Classify(shown.data[i].x) == Classify(original.data[i].x))
                 && (ClassOf(shown.borderColor[i]) == Classify(shown.data[i].x) <==> Classify(shown.data[i].x) == Classify(original.data[i].x))
  {
    if |selected| > 0 {
      assert Visible(original.data, selected) == Filter(original.data, InSelection(selected));
    }
  }

  /** The breast/lung payload: a dependency in breast, a neutral screen in lung. */
  function BreastLungPayload(): seq<TissueRecord> {
    [ TissueRecord("breast", [Screen("MCF7", Some(-1.5), "Breast Cancer", Some(6.7), "ACH-000001")]),
      TissueRecord("lung", [Screen("A549", Some(0.1), "Lung Cancer", Some(2.0), "ACH-000005")]) ]
  }

  /** The breast/lung payload has the tissue index ["breast", "lung"]. */
  lemma BreastLungTissues()
    ensures UniqueTissues(BreastLungPayload()) == ["breast", "lung"]
  {
    var names := TissueNames(BreastLungPayload());
    assert names == ["breast", "lung"];
    assert names[..1] == ["breast"] && names[..1][..0] == [];
    assert Dedupe(names[..1]) == ["breast"];
    assert "lung" != "breast" by { assert "lung"[0] != "breast"[0]; }
  }

  /** The breast/lung payload projects to two rows and one point on each. */
  lemma BreastLungProjection()
    ensures Project(BreastLungPayload()) == (
      ["breast", "lung"],
      [ PlotPoint(-1.5, 0, "breast", "MCF7", "ACH-000001", "Breast Cancer", Some(6.7)),
        PlotPoint(0.1, 1, "lung", "A549", "ACH-000005", "Lung Cancer", Some(2.0)) ])
  {
    var records := BreastLungPayload();
    BreastLungTissues();
    var tissues := UniqueTissues(records);
    assert IndexOf(tissues, "breast") == 0;
    assert IndexOf(tissues, "lung") == 1;
    RecordPointsSingle("breast", records[0].screens[0], tissues);
    RecordPointsSingle("lung", records[1].screens[0], tissues);
    assert records[1..][1..] == [];
    assert Points(records[1..], tissues) == RecordPoints(records[1], tissues);
    var bp := PlotPoint(-1.5, 0, "breast", "MCF7", "ACH-000001", "Breast Cancer", Some(6.7));
    var lp := PlotPoint(0.1, 1, "lung", "A549", "ACH-000005", "Lung Cancer", Some(2.0));
    assert RecordPoints(records[0], tissues) == [bp];
    assert RecordPoints(records[1], tissues) == [lp];
    assert Points(records, tissues) == [bp, lp];
  }

  /**
   * Selecting only "lung" on the breast/lung payload: the as-written dataset
   * shows the neutral lung point in the red fill of the breast point, while
   * the corrected one shows it in blue.
   */
  lemma LungDrawnAsDependency(theme: Option<string>)
    ensures var original := BuildDataset(Project(BreastLungPayload()).1, theme);
            var shown := FilteredDatasetAsWritten(original, ["lung"]);
            var fixed := FilteredDataset(original, ["lung"]);
            && |shown.data| == 1 && shown.data[0].tissue == "lung" && shown.data[0].y == 1
            && Classify(shown.data[0].x) == Neutral
            && ClassOf(shown.backgroundColor[0]) == Dependency
            && fixed.data == shown.data
            && ClassOf(fixed.backgroundColor[0]) == Neutral
  {
    BreastLungProjection();
    var breast := PlotPoint(-1.5, 0, "breast", "MCF7", "ACH-000001", "Breast Cancer", Some(6.7));
    var lung := PlotPoint(0.1, 1, "lung", "A549", "ACH-000005", "Lung Cancer", Some(2.0));
    var original := BuildDataset([breast, lung], theme);
    assert ClassOf(original.backgroundColor[0]) == Dependency;
    assert Filter([breast, lung], InSelection(["lung"])) == [lung];
    var fixed := FilteredDataset(original, ["lung"]);
    assert ClassesAligned(fixed);
  }

  /**
   * The y-axis tick callback `tissues[value] || ""`: a row's name, or nothing
   * off the rows (and for a row whose name is empty, as `||` treats "" as false).
   */
  function YTickLabel(tissues: seq<string>, value: int): (name: string)
    ensures name == "" || name in tissues
    ensures 0 <= value < |tissues| ==> name == tissues[value]
    ensures (forall t :: t in tissues ==> t != "") ==> (name != "" <==> 0 <= value < |tissues|)
  {
    if 0 <= value < |tissues| then tissues[value] else ""
  }

  /** The tick on a shown point's row is labelled with the point's tissue, whatever the selection. */
  lemma TickLabelNamesPoint(records: seq<TissueRecord>, selected: seq<string>)
    ensures forall p :: p in Visible(Points(records, UniqueTissues(records)), selected)
                        ==> YTickLabel(UniqueTissues(records), p.y) == p.tissue
  {
    PointsOnTheirRows(records);
  }

  /** The dashed threshold line drawn by the annotation plugin. */
  datatype Line = Line(xMin: real, xMax: real, yMin: real, yMax: real, color: Rgba)

  /** `annotation.line1`: a vertical line at the threshold spanning every tissue row. */
  function ThresholdLine(tissues: seq<string>, theme: Option<string>): (line: Line)
    ensures line.xMin == line.xMax == EssentialityThreshold
    ensures ClassOf(line.color) == Dependency && line.color.alpha == 0.5
    ensures line.yMin < 0.0 && (|tissues| > 0 ==> (|tissues| - 1) as real < line.yMax)
    ensures line.yMax - line.yMin == |tissues| as real
  {
    Line(-1.0, -1.0, -0.5, |tissues| as real - 0.5,
         if IsDark(theme) then Rgba(239, 68, 68, 0.5) else Rgba(185, 28, 28, 0.5))
  }

  /**
   * The line stands exactly on the classification threshold, in the
   * dependency colour of the theme, and spans every row of the tissue index.
   */
  lemma ThresholdLineMarksBoundary(tissues: seq<string>, theme: Option<string>, row: int)
    requires 0 <= row < |tissues|
    ensures var line := ThresholdLine(tissues, theme);
            && line.xMin == line.xMax == EssentialityThreshold
            && line.color == PointColor(EssentialityThreshold, theme, 0.5)
            && ClassOf(line.color) == Dependency
            && line.yMin < row as real < line.yMax
  {
  }
}

=== FILE: colors.dfy ===
/**
 * Point colouring (`getPointColor`): a score at or below the essentiality
 * threshold is a "dependency" and drawn red, anything else is "neutral" and
 * drawn blue; the theme picks the shade and the opacity is passed through.
 */
module Colors {
  import opened Wrappers

  /** An `rgba(red, green, blue, alpha)` colour. */
  datatype Rgba = Rgba(red: int, green: int, blue: int, alpha: real)

  /** The two classes the chart legend distinguishes. */
  datatype Category = Dependency | Neutral

  /** The gene effect at or below which a cell line depends on the gene. */
  const EssentialityThreshold: real := -1.0

  /** Opacity of a point's fill (the default `alpha`) and of its border. */
  const FillAlpha: real := 0.6
  const BorderAlpha: real := 1.0

  /** The classification the threshold stands for (the boundary is a dependency). */
  function Classify(geneEffect: real): Category {
    if geneEffect <= EssentialityThreshold then Dependency else Neutral
  }

  /** The current theme, `string | undefined`; only "dark" selects the dark shades. */
  predicate IsDark(theme: Option<string>) {
    theme == Some("dark")
  }

  /**
   * `getPointColor(geneEffect, currentTheme, alpha)`: the colour shows the
   * class of the score and carries the requested opacity; the dark theme
   * uses the bright shades (a channel above 200), the light theme the deep
   * ones.
   */
  function PointColor(geneEffect: real, theme: Option<string>, alpha: real): (c: Rgba)
    ensures ClassOf(c) == Classify(geneEffect)
    ensures c.alpha == alpha
    ensures IsDark(theme) ==> c.red > 200 || c.blue > 200
    ensures !IsDark(theme) ==> c.red < 200 && c.blue < 220
  {
    if geneEffect <= -1.0 then
      if IsDark(theme) then Rgba(239, 68, 68, alpha) else Rgba(185, 28, 28, alpha)
    else
      if IsDark(theme) then Rgba(59, 130, 246, alpha) else Rgba(29, 78, 216, alpha)
  }

  /**
   * How a reader of the chart decodes a colour, following its legend: a red
   * dot is "Dependency", a blue one "Neutral".
   */
  function ClassOf(c: Rgba): Category {
    if c.red > c.blue then Dependency else Neutral
  }

  /** The colour of a point shows its class, and the threshold itself is a dependency. */
  lemma ColorShowsClass(geneEffect: real, theme: Option<string>, alpha: real)
    ensures ClassOf(PointColor(geneEffect, theme, alpha)) == Classify(geneEffect)
    ensures ClassOf(PointColor(geneEffect, theme, alpha)) == Dependency <==> geneEffect <= EssentialityThreshold
    ensures PointColor(geneEffect, theme, alpha).alpha == alpha
  {
  }

  /**
   * The colour depends only on the class of the score and on whether the
   * theme is dark: scores of one class share a colour, scores of different
   * classes never do, and the dark and light shades differ.
   */
  lemma ColorDeterminedByClassAndShade(x: real, x': real, theme: Option<string>, theme': Option<string>, alpha: real)
    ensures PointColor(x, theme, alpha) == PointColor(x', theme', alpha)
            <==> Classify(x) == Classify(x') && IsDark(theme) == IsDark(theme')
  {
  }

  /** Fill and border of the same point differ only in opacity. */
  lemma FillAndBorderShareHue(geneEffect: real, theme: Option<string>)
    ensures PointColor(geneEffect, theme, FillAlpha) == PointColor(geneEffect, theme, BorderAlpha).(alpha := FillAlpha)
  {
  }
}

=== FILE: component.dfy ===
/**
 * The state of the `GeneEssentialityMap2` component and the handlers that
 * update it: the reset when a fetch starts, the assignment when the payload
 * arrives, the tissue toggle and the effect that re-derives the shown chart
 * data from the original data whenever the selection changes.
 */
module Component {
  import opened Wrappers
  import opened Seqs
  import opened Projection
  import opened Selection
  import opened Chart

  class GeneEssentialityMap {
    /** The tissue index: the y-axis rows. */
    var tissues: seq<string>
    /** The tissues ticked in the filter, in the order they were ticked. */
    var selectedTissues: seq<string>
    /** What the chart draws; `None` is `null`. */
    var chartData: Option<Dataset>
    /** The unfiltered dataset of the last successful fetch. */
    var originalData: Option<Dataset>

    /** Every dataset held draws each point on its tissue's row and in its class colours. */
    ghost predicate Consistent(ds: Dataset)
      reads this
    {
      ClassesAligned(ds) && RowsAligned(ds.data, tissues)
    }

    ghost predicate Valid()
      reads this
    {
      && NoDuplicates(tissues)
      && NoDuplicates(selectedTissues)
      && (chartData.Some? ==> originalData.Some?)
      && (originalData.Some? ==> Consistent(originalData.value))
      && (chartData.Some? ==> Consistent(chartData.value))
    }

    /** The chart shows what the filter effect derives from the original data. */
    ghost predicate InSync()
      reads this
    {
      originalData.Some? ==> Shaped(originalData.value) && chartData == Some(FilteredDataset(originalData.value, selectedTissues))
    }

    /** The initial state: nothing fetched, nothing selected. */
    constructor ()
      ensures Valid() && InSync()
      ensures tissues == [] && selectedTissues == [] && chartData == None && originalData == None
    {
      tissues := [];
      selectedTissues := [];
      chartData := None;
      originalData := None;
    }

    /** The reset at the start of `fetchData`: chart, tissues, selection and original data are cleared. */
    method FetchStarted()
      modifies this
      ensures Valid() && InSync()
      ensures tissues == [] && selectedTissues == [] && chartData == None && originalData == None
    {
      chartData := None;
      tissues := [];
      selectedTissues := [];
      originalData := None;
    }

    /**
     * A successful fetch: the tissue index and the dataset are derived from
     * the payload, and the chart data and the original data are the same
     * value.
     */
    method FetchSucceeded(records: seq<TissueRecord>, theme: Option<string>)
      requires Valid()
      modifies this
      ensures Valid()
      ensures tissues == UniqueTissues(records)
      ensures originalData == Some(BuildDataset(Points(records, tissues), theme))
      ensures chartData == originalData
      ensures |originalData.value.data| == NonNullCount(records)
      ensures selectedTissues == old(selectedTissues)
      ensures old(selectedTissues) == [] ==> InSync()
    {
      var projected := Project(records);
      tissues := projected.0;
      var dataset := BuildDataset(projected.1, theme);
      chartData := Some(dataset);
      originalData := Some(dataset);
    }

    /** `toggleTissueSelection(tissue)`; the original data is untouched. */
    method ToggleTissueSelection(tissue: string)
      requires Valid()
      modifies this`selectedTissues
      ensures Valid()
      ensures selectedTissues == Toggle(old(selectedTissues), tissue)
      ensures tissue in selectedTissues <==> tissue !in old(selectedTissues)
    {
      selectedTissues := Toggle(selectedTissues, tissue);
    }

    /**
     * The effect on `[selectedTissues, originalData]`: with original data it
     * shows the points of the selected tissues (all of them when none is
     * selected); without original data it leaves the chart data alone.
     */
    method SelectionEffect()
      requires Valid()
      modifies this`chartData
      ensures Valid() && InSync()
      ensures originalData.None? ==> chartData == old(chartData)
      ensures originalData.Some? && selectedTissues == [] ==> chartData == originalData
      ensures chartData.Some? ==> chartData.value.data == Visible(originalData.value.data, selectedTissues)
    {
      if originalData.Some? && |selectedTissues| > 0 {
        VisibleKeepsRows(originalData.value.data, selectedTissues, tissues);
        chartData := Some(FilteredDataset(originalData.value, selectedTissues));
      } else if originalData.Some? {
        chartData := originalData;
      }
    }
  }
}

=== FILE: projection.dfy ===
/**
 * The projection inside `fetchData`: a screen-result payload becomes the
 * tissue index (one row per distinct tissue name) and the flat list of
 * scatter points, one per screen whose gene effect is not null.
 */
module Projection {
  import opened Wrappers
  import opened Seqs

  /** One knockout screen of a cell line; `geneEffect` and `expression` may be null. */
  datatype Screen = Screen(
    cellLineName: string,
    geneEffect: Option<real>,
    diseaseFromSource: string,
    expression: Option<real>,
    depmapId: string)

  /** An entry of `essentialityData`. */
  datatype TissueRecord = TissueRecord(tissueName: string, screens: seq<Screen>)

  /** A scatter point: `x` is the gene effect, `y` the row of its tissue. */
  datatype PlotPoint = PlotPoint(
    x: real,
    y: int,
    tissue: string,
    cellLine: string,
    depmapId: string,
    disease: string,
    expression: Option<real>)

  /** `essentialityData.map(item => item.tissueName)`. */
  function TissueNames(records: seq<TissueRecord>): seq<string> {
    seq(|records|, i requires 0 <= i < |records| => records[i].tissueName)
  }

  /** The tissue names of the payload, as a set. */
  function TissueNameSet(records: seq<TissueRecord>): set<string> {
    set r | r in records :: r.tissueName
  }

  /** `[...new Set(essentialityData.map(item => item.tissueName))]`: the tissue index. */
  function UniqueTissues(records: seq<TissueRecord>): (tissues: seq<string>)
    ensures NoDuplicates(tissues)
    ensures forall name :: name in tissues <==> name in TissueNameSet(records)
  {
    var names := TissueNames(records);
    forall name | name in TissueNameSet(records) ensures name in names {
      var r :| r in records && r.tissueName == name;
      var i :| 0 <= i < |records| && records[i] == r;
      assert names[i] == name;
    }
    Dedupe(names)
  }

  /** The `screen.geneEffect !== null` filter. */
  predicate Plottable(s: Screen) {
    s.geneEffect.Some?
  }

  /** The point built for a plottable screen of the tissue `tissueName`. */
  function ToPoint(tissueName: string, s: Screen, tissues: seq<string>): (p: PlotPoint)
    requires Plottable(s)
    ensures p.x == s.geneEffect.value && p.tissue == tissueName && p.expression == s.expression
    ensures p.cellLine == s.cellLineName && p.depmapId == s.depmapId && p.disease == s.diseaseFromSource
    ensures tissueName in tissues ==> 0 <= p.y < |tissues| && tissues[p.y] == tissueName
    ensures tissueName !in tissues ==> p.y == -1
  {
    PlotPoint(s.geneEffect.value, IndexOf(tissues, tissueName), tissueName,
              s.cellLineName, s.depmapId, s.diseaseFromSource, s.expression)
  }

  /** `item.screens.filter(...).map(...)` for one tissue record. */
  function RecordPoints(record: TissueRecord, tissues: seq<string>): (r: seq<PlotPoint>)
    ensures |r| <= |record.screens|
    ensures forall p :: p in r ==> p.tissue == record.tissueName && p.y == IndexOf(tissues, record.tissueName)
  {
    var kept := Filter(record.screens, Plottable);
    seq(|kept|, k requires 0 <= k < |kept| => ToPoint(record.tissueName, kept[k], tissues))
  }

  /** `essentialityData.flatMap(...)`: the points of every record, record after record. */
  function Points(records: seq<TissueRecord>, tissues: seq<string>): (r: seq<PlotPoint>)
    ensures forall p :: p in r ==> p.y == IndexOf(tissues, p.tissue)
  {
    if |records| == 0 then []
    else RecordPoints(records[0], tissues) + Points(records[1..], tissues)
  }

  /** The number of screens of the payload whose gene effect is not null. */
  function NonNullCount(records: seq<TissueRecord>): nat {
    if |records| == 0 then 0 else NonNullScreens(records[0].screens) + NonNullCount(records[1..])
  }

  function NonNullScreens(screens: seq<Screen>): nat {
    if |screens| == 0 then 0
    else (if screens[0].geneEffect == None then 0 else 1) + NonNullScreens(screens[1..])
  }

  /** Every point sits on a row of `tissues` that carries its own tissue name. */
  ghost predicate RowsAligned(points: seq<PlotPoint>, tissues: seq<string>) {
    forall p :: p in points ==> 0 <= p.y < |tissues| && tissues[p.y] == p.tissue
  }

  /** Point `p` was built from screen `j` of record `i`, a screen with a gene effect. */
  ghost predicate ProjectedFrom(p: PlotPoint, records: seq<TissueRecord>, tissues: seq<string>) {
    exists i, j :: 0 <= i < |records| && 0 <= j < |records[i].screens|
                   && Plottable(records[i].screens[j])
                   && p == ToPoint(records[i].tissueName, records[i].screens[j], tissues)
  }

  /**
   * The whole projection of a payload: the tissue index and the points,
   * each on the row of its tissue, one per non-null screen.
   */
  function Project(records: seq<TissueRecord>): (r: (seq<string>, seq<PlotPoint>))
    ensures NoDuplicates(r.0)
    ensures forall name :: name in r.0 <==> name in TissueNameSet(records)
    ensures RowsAligned(r.1, r.0)
    ensures |r.1| == NonNullCount(records)
    ensures records == [] ==> r.0 == [] && r.1 == []
  {
    var tissues := UniqueTissues(records);
    PointsOnTheirRows(records);
    PointCount(records, tissues);
    (tissues, Points(records, tissues))
  }

  // ---------------------------------------------------------------------
  // Counting
  // ---------------------------------------------------------------------

  lemma {:induction false} KeptScreensCount(screens: seq<Screen>)
    ensures |Filter(screens, Plottable)| == NonNullScreens(screens)
  {
    if |screens| > 0 {
      KeptScreensCount(screens[1..]);
    }
  }

  /** There is exactly one point per screen whose gene effect is not null. */
  lemma {:induction false} PointCount(records: seq<TissueRecord>, tissues: seq<string>)
    ensures |Points(records, tissues)| == NonNullCount(records)
  {
    if |records| > 0 {
      KeptScreensCount(records[0].screens);
      PointCount(records[1..], tissues);
    }
  }

  // ---------------------------------------------------------------------
  // Order: record by record, screen by screen
  // ---------------------------------------------------------------------

  /** The points of two payloads laid end to end are the points of each, in turn. */
  lemma {:induction false} PointsAppend(a: seq<TissueRecord>, b: seq<TissueRecord>, tissues: seq<string>)
    ensures Points(a + b, tissues) == Points(a, tissues) + Points(b, tissues)
  {
    if |a| == 0 {
      assert a + b == b;
    } else {
      assert (a + b)[0] == a[0] && (a + b)[1..] == a[1..] + b;
      PointsAppend(a[1..], b, tissues);
    }
  }

  /** Within a record, the points of two runs of screens come one run after the other. */
  lemma RecordPointsAppend(name: string, a: seq<Screen>, b: seq<Screen>, tissues: seq<string>)
    ensures RecordPoints(TissueRecord(name, a + b), tissues)
            == RecordPoints(TissueRecord(name, a), tissues) + RecordPoints(TissueRecord(name, b), tissues)
  {
    FilterAppend(a, b, Plottable);
  }

  /** A single screen yields one point when its gene effect is present and none when it is null. */
  lemma RecordPointsSingle(name: string, s: Screen, tissues: seq<string>)
    ensures RecordPoints(TissueRecord(name, [s]), tissues)
            == if s.geneEffect == None then [] else [ToPoint(name, s, tissues)]
  {
    assert [s][1..] == [];
  }

  // ---------------------------------------------------------------------
  // Provenance and completeness
  // ---------------------------------------------------------------------

  /** Every point was built from some non-null screen of the payload. */
  lemma {:induction false} PointsProjectedFrom(records: seq<TissueRecord>, tissues: seq<string>)
    ensures forall p :: p in Points(records, tissues) ==> ProjectedFrom(p, records, tissues)
  {
    if |records| > 0 {
      PointsProjectedFrom(records[1..], tissues);
      var head := RecordPoints(records[0], tissues);
      var kept := Filter(records[0].screens, Plottable);
      forall p | p in Points(records, tissues) ensures ProjectedFrom(p, records, tissues) {
        if p in head {
          var k :| 0 <= k < |kept| && head[k] == p;
          assert kept[k] in records[0].screens;
          var j :| 0 <= j < |records[0].screens| && records[0].screens[j] == kept[k];
          assert Plottable(records[0].screens[j]);
        } else {
          assert p in Points(records[1..], tissues);
          var i, j :| 0 <= i < |records[1..]| && 0 <= j < |records[1..][i].screens|
                      && Plottable(records[1..][i].screens[j])
                      && p == ToPoint(records[1..][i].tissueName, records[1..][i].screens[j], tissues);
          assert records[1..][i] == records[i + 1];
        }
      }
    }
  }

  /** Every non-null screen of the payload gives a point. */
  lemma {:induction false} PointsComplete(records: seq<TissueRecord>, tissues: seq<string>, i: int, j: int)
    requires 0 <= i < |records| && 0 <= j < |records[i].screens|
    requires records[i].screens[j].geneEffect != None
    ensures ToPoint(records[i].tissueName, records[i].screens[j], tissues) in Points(records, tissues)
  {
    if i == 0 {
      var kept := Filter(records[0].screens, Plottable);
      assert records[0].screens[j] in kept;
      var k :| 0 <= k < |kept| && kept[k] == records[0].screens[j];
      assert RecordPoints(records[0], tissues)[k] == ToPoint(records[0].tissueName, records[0].screens[j], tissues);
    } else {
      assert records[1..][i - 1] == records[i];
      PointsComplete(records[1..], tissues, i - 1, j);
    }
  }

  // ---------------------------------------------------------------------
  // Rows
  // ---------------------------------------------------------------------

  /** With the payload's own tissue index, every point lies on the row named after its tissue. */
  lemma PointsOnTheirRows(records: seq<TissueRecord>)
    ensures RowsAligned(Points(records, UniqueTissues(records)), UniqueTissues(records))
  {
    var tissues := UniqueTissues(records);
    PointsProjectedFrom(records, tissues);
    forall p | p in Points(records, tissues) ensures 0 <= p.y < |tissues| && tissues[p.y] == p.tissue {
      var i, j :| 0 <= i < |records| && 0 <= j < |records[i].screens|
                  && Plottable(records[i].screens[j])
                  && p == ToPoint(records[i].tissueName, records[i].screens[j], tissues);
      assert records[i].tissueName in TissueNameSet(records);
    }
  }

  /**
   * Two points of one payload share a row exactly when they share a tissue
   * name; in particular a tissue name repeated across records keeps the row
   * of its first record.
   */
  lemma SameRowIffSameTissue(records: seq<TissueRecord>, p: PlotPoint, q: PlotPoint)
    requires p in Points(records, UniqueTissues(records)) && q in Points(records, UniqueTissues(records))
    ensures p.y == q.y <==> p.tissue == q.tissue
    ensures p.y == IndexOf(UniqueTissues(records), p.tissue)
  {
    PointsOnTheirRows(records);
    var tissues := UniqueTissues(records);
    IndexOfDistinct(tissues, p.y);
    IndexOfDistinct(tissues, q.y);
  }

  /** The tissue index lists each tissue name of the payload once, by its first record. */
  lemma TissueIndexOrder(records: seq<TissueRecord>, a: int, b: int)
    requires 0 <= a < b < |UniqueTissues(records)|
    ensures IndexOf(TissueNames(records), UniqueTissues(records)[a])
            < IndexOf(TissueNames(records), UniqueTissues(records)[b])
  {
    DedupeFirstOccurrenceOrder(TissueNames(records), a, b);
  }

  /** The tissue index has one row per distinct tissue name, with or without plottable screens. */
  lemma TissueIndexSize(records: seq<TissueRecord>)
    ensures |UniqueTissues(records)| == |TissueNameSet(records)|
  {
    var names := TissueNames(records);
    DedupeCardinality(names);
    assert Elements(names) == TissueNameSet(records) by {
      forall name | name in TissueNameSet(records) ensures name in Elements(names) {
        var r :| r in records && r.tissueName == name;
        var i :| 0 <= i < |records| && records[i] == r;
        assert names[i] == name;
      }
    }
  }
}

=== FILE: selection.dfy ===
/**
 * The tissue filter: `toggleTissueSelection` and the list of points the
 * filter effect shows for a selection.
 */
module Selection {
  import opened Seqs
  import opened Projection

  /** The predicate `t => t !== tissue`. */
  function Other(tissue: string): string -> bool {
    (t: string) => t != tissue
  }

  /** The predicate `point => selectedTissues.includes(point.tissue)`. */
  function InSelection(selected: seq<string>): PlotPoint -> bool {
    (p: PlotPoint) => p.tissue in selected
  }

  /**
   * `prev.includes(tissue) ? prev.filter(t => t !== tissue) : [...prev, tissue]`:
   * membership of `tissue` flips and every other name keeps its membership;
   * a present tissue loses all its copies, an absent one is appended.
   */
  function Toggle(selected: seq<string>, tissue: string): (r: seq<string>)
    ensures forall t :: t in r <==> (if t == tissue then tissue !in selected else t in selected)
    ensures tissue !in selected ==> r == selected + [tissue]
    ensures tissue in selected ==> IsSubsequence(r, selected) && multiset(r) == multiset(selected)[tissue := 0]
    ensures NoDuplicates(selected) ==> NoDuplicates(r)
  {
    if tissue in selected then
      var r := Filter(selected, Other(tissue));
      FilterIsSubsequence(selected, Other(tissue));
      forall t ensures multiset(r)[t] == multiset(selected)[tissue := 0][t] {
        FilterMultiplicity(selected, Other(tissue), t);
      }
      assert multiset(r) == multiset(selected)[tissue := 0];
      FilterKeepsNoDuplicates(selected, Other(tissue));
      r
    else
      selected + [tissue]
  }

  /** Toggling a tissue twice restores the selection's membership. */
  lemma ToggleTwiceSameMembers(selected: seq<string>, tissue: string)
    ensures forall t :: t in Toggle(Toggle(selected, tissue), tissue) <==> t in selected
  {
  }

  /** Toggling an unselected tissue twice restores the selection exactly. */
  lemma ToggleTwiceRestores(selected: seq<string>, tissue: string)
    requires tissue !in selected
    ensures Toggle(Toggle(selected, tissue), tissue) == selected
  {
    var once := selected + [tissue];
    FilterAppend(selected, [tissue], Other(tissue));
    FilterKeepsAll(selected, Other(tissue));
    assert Filter([tissue], Other(tissue)) == [];
  }

  /**
   * The points shown for a selection: all of them when nothing is selected,
   * otherwise exactly those whose tissue is selected, unchanged and in their
   * original order.
   */
  function Visible(points: seq<PlotPoint>, selected: seq<string>): (r: seq<PlotPoint>)
    ensures |selected| == 0 ==> r == points
    ensures |selected| > 0 ==> forall p :: p in r <==> p in points && p.tissue in selected
    ensures IsSubsequence(r, points)
    ensures |selected| > 0 ==> forall p :: multiset(r)[p] == if p.tissue in selected then multiset(points)[p] else 0
  {
    if |selected| == 0 then
      SubsequenceReflexive(points);
      points
    else
      var r := Filter(points, InSelection(selected));
      FilterIsSubsequence(points, InSelection(selected));
      forall p ensures multiset(r)[p] == if p.tissue in selected then multiset(points)[p] else 0 {
        FilterMultiplicity(points, InSelection(selected), p);
      }
      r
  }

  /**
   * Only the membership of the selection matters: two selections with the
   * same members show the same points, whatever toggles led to them.
   */
  lemma VisibleDependsOnlyOnMembers(points: seq<PlotPoint>, s1: seq<string>, s2: seq<string>)
    requires forall t :: t in s1 <==> t in s2
    ensures Visible(points, s1) == Visible(points, s2)
  {
    if |s1| > 0 {
      assert s1[0] in s2;
    }
    if |s2| > 0 {
      assert s2[0] in s1;
      FilterCongruent(points, InSelection(s1), InSelection(s2));
    }
  }

  /** Toggling the same tissue twice brings back the same view. */
  lemma ToggleTwiceSameView(points: seq<PlotPoint>, selected: seq<string>, tissue: string)
    ensures Visible(points, Toggle(Toggle(selected, tissue), tissue)) == Visible(points, selected)
  {
    VisibleDependsOnlyOnMembers(points, Toggle(Toggle(selected, tissue), tissue), selected);
  }

  /** Filtering the shown points again with the same selection changes nothing. */
  lemma VisibleIdempotent(points: seq<PlotPoint>, selected: seq<string>)
    ensures Visible(Visible(points, selected), selected) == Visible(points, selected)
  {
    if |selected| > 0 {
      FilterKeepsAll(Visible(points, selected), InSelection(selected));
    }
  }

  /** Filtering keeps every shown point on the row of its tissue. */
  lemma VisibleKeepsRows(points: seq<PlotPoint>, selected: seq<string>, tissues: seq<string>)
    requires RowsAligned(points, tissues)
    ensures RowsAligned(Visible(points, selected), tissues)
  {
  }
}

=== FILE: seqs.dfy ===
/**
 * Generic sequence operations behind the component's list expressions:
 * `Array.prototype.indexOf`, `[...new Set(xs)]` and `Array.prototype.filter`.
 */
module Seqs {

  /** No value occurs twice. */
  predicate NoDuplicates<T(==)>(s: seq<T>) {
    forall i, j :: 0 <= i < j < |s| ==> s[i] != s[j]
  }

  /** The set of values occurring in `s`. */
  function Elements<T>(s: seq<T>): set<T> {
    set x | x in s
  }

  /** `a` can be obtained from `b` by deleting elements (order is kept). */
  predicate IsSubsequence<T(==)>(a: seq<T>, b: seq<T>)
    decreases |b|
  {
    if |a| == 0 then true
    else if |b| == 0 then false
    else if a[0] == b[0] then IsSubsequence(a[1..], b[1..])
    else IsSubsequence(a, b[1..])
  }

  /** `s.indexOf(x)`: the first position holding `x`, or -1 when there is none. */
  function IndexOf<T(==)>(s: seq<T>, x: T): (r: int)
    ensures -1 <= r < |s|
    ensures r == -1 <==> x !in s
    ensures 0 <= r ==> s[r] == x && forall j :: 0 <= j < r ==> s[j] != x
  {
    if |s| == 0 then -1
    else if s[0] == x then 0
    else
      var k := IndexOf(s[1..], x);
      if k == -1 then -1 else k + 1
  }

  /**
   * `[...new Set(s)]`: a Set remembers insertion order and ignores a value
   * it already holds, so the result lists each value of `s` once, in the
   * order of first occurrence.
   */
  function Dedupe<T(==,!new)>(s: seq<T>): (r: seq<T>)
    ensures NoDuplicates(r)
    ensures forall x :: x in r <==> x in s
  {
    if |s| == 0 then []
    else
      var init, last := s[..|s| - 1], s[|s| - 1];
      assert s == init + [last];
      var d := Dedupe(init);
      if last in d then d else d + [last]
  }

  /** `s.filter(keep)`: the elements satisfying `keep`, in their original order. */
  function Filter<T(!new)>(s: seq<T>, keep: T -> bool): (r: seq<T>)
    ensures |r| <= |s|
    ensures forall x :: x in r <==> x in s && keep(x)
  {
    if |s| == 0 then []
    else if keep(s[0]) then [s[0]] + Filter(s[1..], keep)
    else Filter(s[1..], keep)
  }

  // ---------------------------------------------------------------------
  // IndexOf
  // ---------------------------------------------------------------------

  /** In a sequence without duplicates, `indexOf` finds each element at its own position. */
  lemma IndexOfDistinct<T(!new)>(s: seq<T>, i: int)
    requires NoDuplicates(s) && 0 <= i < |s|
    ensures IndexOf(s, s[i]) == i
  {
  }

  /** Appending never changes where an element already present is found first. */
  lemma {:induction false} IndexOfAppend<T(!new)>(s: seq<T>, t: seq<T>, x: T)
    ensures x in s ==> IndexOf(s + t, x) == IndexOf(s, x)
    ensures x !in s && x in t ==> IndexOf(s + t, x) == |s| + IndexOf(t, x)
  {
    if |s| > 0 {
      assert s == [s[0]] + s[1..];
      assert (s + t)[0] == s[0] && (s + t)[1..] == s[1..] + t;
      IndexOfAppend(s[1..], t, x);
    } else {
      assert s + t == t;
    }
  }

  // ---------------------------------------------------------------------
  // Dedupe
  // ---------------------------------------------------------------------

  /** The deduplicated sequence lists values by increasing first occurrence in `s`. */
  lemma {:induction false} DedupeFirstOccurrenceOrder<T(!new)>(s: seq<T>, i: int, j: int)
    requires 0 <= i < j < |Dedupe(s)|
    ensures IndexOf(s, Dedupe(s)[i]) < IndexOf(s, Dedupe(s)[j])
  {
    var init, last := s[..|s| - 1], s[|s| - 1];
    assert s == init + [last];
    var d := Dedupe(init);
    assert Dedupe(s)[i] in d && Dedupe(s)[i] in init;
    IndexOfAppend(init, [last], Dedupe(s)[i]);
    if j < |d| {
      assert Dedupe(s)[j] == d[j] && d[j] in init;
      IndexOfAppend(init, [last], d[j]);
      DedupeFirstOccurrenceOrder(init, i, j);
    } else {
      assert last !in d && last !in init;
      IndexOfAppend(init, [last], last);
    }
  }

  /** A sequence without duplicates is as long as its set of values is large. */
  lemma {:induction false} NoDuplicatesCardinality<T(!new)>(s: seq<T>)
    requires NoDuplicates(s)
    ensures |Elements(s)| == |s|
  {
    if |s| > 0 {
      var init, last := s[..|s| - 1], s[|s| - 1];
      assert s == init + [last];
      assert NoDuplicates(init);
      NoDuplicatesCardinality(init);
      assert Elements(s) == Elements(init) + {last};
      assert last !in Elements(init);
    }
  }

  /** `[...new Set(s)]` has one entry per distinct value of `s`. */
  lemma DedupeCardinality<T(!new)>(s: seq<T>)
    ensures |Dedupe(s)| == |Elements(s)|
  {
    assert Elements(Dedupe(s)) == Elements(s);
    NoDuplicatesCardinality(Dedupe(s));
  }

  // ---------------------------------------------------------------------
  // Filter
  // ---------------------------------------------------------------------

  /** Filtering a concatenation filters each part. */
  lemma {:induction false} FilterAppend<T(!new)>(a: seq<T>, b: seq<T>, keep: T -> bool)
    ensures Filter(a + b, keep) == Filter(a, keep) + Filter(b, keep)
  {
    if |a| == 0 {
      assert a + b == b;
    } else {
      assert (a + b)[0] == a[0] && (a + b)[1..] == a[1..] + b;
      FilterAppend(a[1..], b, keep);
      if keep(a[0]) {
        assert Filter(a + b, keep) == [a[0]] + (Filter(a[1..], keep) + Filter(b, keep));
      }
    }
  }

  /** Filtering keeps the relative order of what it keeps. */
  lemma {:induction false} FilterIsSubsequence<T(!new)>(s: seq<T>, keep: T -> bool)
    ensures IsSubsequence(Filter(s, keep), s)
  {
    if |s| > 0 {
      FilterIsSubsequence(s[1..], keep);
      if !keep(s[0]) {
        SubsequenceOfTail(Filter(s[1..], keep), s);
      }
    }
  }

  /** Every sequence is a subsequence of itself. */
  lemma {:induction false} SubsequenceReflexive<T(!new)>(s: seq<T>)
    ensures IsSubsequence(s, s)
  {
    if |s| > 0 {
      SubsequenceReflexive(s[1..]);
    }
  }

  /** A subsequence of the tail is a subsequence of the whole sequence. */
  lemma {:induction false} SubsequenceOfTail<T(!new)>(a: seq<T>, b: seq<T>)
    requires |b| > 0 && IsSubsequence(a, b[1..])
    ensures IsSubsequence(a, b)
    decreases |b|, 0
  {
    if |a| > 0 && a[0] == b[0] {
      SubsequenceDropHead(a, b[1..]);
    }
  }

  /** Dropping the first element of a subsequence leaves a subsequence. */
  lemma {:induction false} SubsequenceDropHead<T(!new)>(a: seq<T>, b: seq<T>)
    requires |a| > 0 && IsSubsequence(a, b)
    ensures IsSubsequence(a[1..], b)
    decreases |b|, 1
  {
    if a[0] == b[0] {
      SubsequenceOfTail(a[1..], b);
    } else {
      SubsequenceDropHead(a, b[1..]);
      SubsequenceOfTail(a[1..], b);
    }
  }

  /** Every kept value occurs as often as in the input; every dropped one not at all. */
  lemma {:induction false} FilterMultiplicity<T(!new)>(s: seq<T>, keep: T -> bool, x: T)
    ensures multiset(Filter(s, keep))[x] == if keep(x) then multiset(s)[x] else 0
  {
    if |s| > 0 {
      assert s == [s[0]] + s[1..];
      FilterMultiplicity(s[1..], keep, x);
    }
  }

  /** Filtering with a predicate that holds everywhere changes nothing. */
  lemma {:induction false} FilterKeepsAll<T(!new)>(s: seq<T>, keep: T -> bool)
    requires forall x :: x in s ==> keep(x)
    ensures Filter(s, keep) == s
  {
    if |s| > 0 {
      FilterKeepsAll(s[1..], keep);
    }
  }

  /** Filtering never introduces a duplicate. */
  lemma {:induction false} FilterKeepsNoDuplicates<T(!new)>(s: seq<T>, keep: T -> bool)
    ensures NoDuplicates(s) ==> NoDuplicates(Filter(s, keep))
  {
    if |s| > 0 {
      FilterKeepsNoDuplicates(s[1..], keep);
      if NoDuplicates(s) {
        assert NoDuplicates(s[1..]);
        assert s[0] !in s[1..];
      }
    }
  }

  /** Two predicates that agree on the elements of `s` filter it alike. */
  lemma {:induction false} FilterCongruent<T(!new)>(s: seq<T>, k1: T -> bool, k2: T -> bool)
    requires forall x :: x in s ==> k1(x) == k2(x)
    ensures Filter(s, k1) == Filter(s, k2)
  {
    if |s| > 0 {
      FilterCongruent(s[1..], k1, k2);
    }
  }
}

=== FILE: wrappers.dfy ===
/** Optional values: a JSON field that may be `null`. */
module Wrappers {

  datatype Option<+T> = None | Some(value: T)
}
